=== FILE: README.md ===
# Shell executor core, modelled in Dafny

This project models the sequential logic of a shell-execution service, a Java
Spring/Dubbo application. The service runs a command string on the local
host, either synchronously or asynchronously, and keeps asynchronous runs in
an in-memory registry that callers poll. Three pieces are modelled:

* **The command guard** (`ExecutorConfig`, `config.dfy`). This is the
  configuration object's `isCommandBlocked`. A null or blank command is
  refused. Otherwise the command is lower-cased and trimmed, then checked for
  an exact match against the blocked list and for a substring match against
  the dangerous-keyword list. Both lists are lower-cased before comparison.
  `IsCommandBlocked` is the loop the source runs. `Blocked` is the reference
  predicate it is proved equal to.
* **The execution registry** (`ExecutionManager`, `registry.dfy`). This is a
  `map<string, Record>` with create, the two appends, the three terminal
  setters, lookup and one expiry sweep. Each is a pure map-to-map function.
  Time is an abstract `int` in milliseconds, passed to every operation that
  reads the clock. The asynchronous run's background work is a sequence of
  `Event`s applied with `ApplyAll`. Any interleaving of the two line readers
  and the waiter is one such sequence.
* **The execution service** (`Service`, `service.dfy`, and `Results`,
  `results.dfy`). The operating-system process is an input value,
  `Process`. Either starting it throws, or it yields two `Stream`s and a
  `Wait` outcome (exit value, timeout, or exception). The synchronous path
  maps that value to an `ExecuteResult`. The asynchronous path maps it to the
  id it returns and to registry updates.

`text.dfy` (`Text`) holds the Java library behaviour the core relies on:
`String.trim` (leading and trailing characters at most U+0020 are removed), ASCII case mapping,
`String.contains`, and the line splitting of `BufferedReader.readLine`.
`wrappers.dfy` holds `Option`, which stands for a nullable Java reference,
and `Result`, which stands for a value or a thrown exception.

A reader might expect three things: the first terminal call wins, a finished record is frozen, and a supplied id is always honoured and tracked. The code guarantees none of them, and the model follows the code as written:

* The terminal setters have no guard on the current status. A second
  terminal call overwrites the first, so the last call wins
  (`LaterTerminalOverwrites`). `setFinished` also keeps an earlier error
  message (`FinishKeepsEarlierMessage`).
* A finished record is not frozen. A reader that appends after the waiter
  has finished still extends the line lists (`AppendAfterFinish`).
* The asynchronous blocked path always creates a new id and ignores a
  supplied one (`AsyncBlockedIgnoresSuppliedId`).
* A supplied id is returned without being registered. If the registry does
  not already hold that id, every background update is dropped and the id
  never resolves (`AsyncUnknownSuppliedIdNeverResolves`).
* In the synchronous path, a failure while reading stderr after stdout was
  read keeps the stdout text in `output` and sets exit code 1. So partial
  output can be returned (`ExecuteCommand`'s last ensures).
* An exact-list entry with leading or trailing whitespace can never match.
  Entries are lower-cased but not trimmed (`PaddedEntryNeverMatches`).
* The default keywords for `rm` and `mv` on the root glob end in a space.
  The command is trimmed, so such a keyword never matches at the end of a
  command (`SpaceEndedKeywordNeverAtEnd`). The bare root-glob `rm` and `mv`
  commands pass the guard, while the same `rm` command with an argument
  after the glob is blocked (`GlobAtEndAllowed`).

## Model

| member | source | states |
|---|---|---|
| ExecutorConfig.IsCommandBlocked | src/main/java/com/example/shellexecutor/config/ShellExecutorConfig.java:43-65 | A null or blank command is blocked. Otherwise the command is blocked exactly when its normalised form equals a lower-cased exact entry or contains a lower-cased keyword. The loops compute the reference predicate `Blocked`. |
| ExecutorConfig.Normalize | src/main/java/com/example/shellexecutor/config/ShellExecutorConfig.java:48 | The normalised command is the ASCII lower-cased command with leading and trailing characters at most U+0020 removed. |
| ExecutorConfig.PaddingInsensitive | src/main/java/com/example/shellexecutor/config/ShellExecutorConfig.java:44-48 | Surrounding a command with trimmable characters on either side never changes the decision. |
| ExecutorConfig.TrimInsensitive | src/main/java/com/example/shellexecutor/config/ShellExecutorConfig.java:48 | The decision on a command equals the decision on its trimmed form. |
| ExecutorConfig.CaseInsensitive | src/main/java/com/example/shellexecutor/config/ShellExecutorConfig.java:48-62 | Upper-casing the ASCII letters of a command never changes the decision. |
| ExecutorConfig.CaseAndPaddingInsensitive | src/main/java/com/example/shellexecutor/config/ShellExecutorConfig.java:43-65 | A command that is both upper-cased and whitespace-padded gets the same decision as the original. |
| ExecutorConfig.PaddedEntryNeverMatches | src/main/java/com/example/shellexecutor/config/ShellExecutorConfig.java:51-55 | An exact entry that starts or ends with whitespace never equals any normalised command. |
| ExecutorConfig.SpaceEndedKeywordNeverAtEnd | src/main/java/com/example/shellexecutor/config/ShellExecutorConfig.java:48-62 | A keyword whose last character is at most U+0020 never occurs at the end of a normalised command. |
| ExecutorConfig.ShortFreeOfDefaultKeywords | src/main/java/com/example/shellexecutor/config/ShellExecutorConfig.java:19-27 | A command of at most five characters containing neither 'k' nor 'f' contains no default keyword. The only default keywords that short are "mkfs" and "fdisk". |
| ExecutorConfig.GlobAtEndAllowed | src/main/java/com/example/shellexecutor/config/ShellExecutorConfig.java:24 | The default configuration allows the bare root-glob `rm` and `mv` commands, because their keywords end in a space that trimming removes from the command. It blocks the `rm` command with an argument after the glob. |
| ExecutorConfig.Monotonic | src/main/java/com/example/shellexecutor/config/ShellExecutorConfig.java:51-62 | If both lists only gain entries, every blocked command stays blocked. |
| ExecutorConfig.ShutdownInsideCommandBlocked | src/main/java/com/example/shellexecutor/config/ShellExecutorConfig.java:19-27 | "echo shutdown now" matches no exact entry of the list "rm -rf /", "format c:", "shutdown". It is still blocked by the default keyword "shutdown". |
| ExecutorConfig.FreeOfDefaultKeywords | src/main/java/com/example/shellexecutor/config/ShellExecutorConfig.java:19-27 | A normalised command that lacks the characters r, f, m, d, ':', '>', s and i contains none of the default keywords. |
| ExecutorConfig.EchoCommandsAllowed | src/main/java/com/example/shellexecutor/config/ShellExecutorConfig.java:43-65 | The default configuration allows "echo hello" and "echo a; echo b". |
| Text.TrimShape | src/main/java/com/example/shellexecutor/config/ShellExecutorConfig.java:48 | The trimmed string is a slice whose removed prefix and suffix are all trimmable. Neither end of a non-empty result is trimmable. |
| Text.TrimPadded | src/main/java/com/example/shellexecutor/config/ShellExecutorConfig.java:48 | Trimming ignores padding made only of trimmable characters. |
| Text.TrimIdempotent | src/main/java/com/example/shellexecutor/config/ShellExecutorConfig.java:48 | Trimming twice is the same as trimming once. |
| Text.TrimLower | src/main/java/com/example/shellexecutor/config/ShellExecutorConfig.java:48 | Lower-casing and trimming commute. So the source's order (lower-case, then trim) gives the same string as the reverse order. |
| Text.BlankIffAllTrimmable | src/main/java/com/example/shellexecutor/config/ShellExecutorConfig.java:44 | A command is blank exactly when every character is at most U+0020. |
| Text.BlankUpper | src/main/java/com/example/shellexecutor/config/ShellExecutorConfig.java:44 | Upper-casing keeps blank commands blank and non-blank ones non-blank. |
| Text.ReadLinesJoin | src/main/java/com/example/shellexecutor/service/ShellService.java:39-46 | Reading the joined text back with `readLine` returns the original lines. This holds for both "\n" and "\r\n" separators. |
| Text.JoinContainsLine | src/main/java/com/example/shellexecutor/service/ShellService.java:39-46 | Every line, followed by the separator, occurs in the joined text. |
| Results.SetExitCode | src/main/java/com/example/shellexecutor/model/ExecuteResult.java:12-15 | The exit code becomes the argument. `success` holds exactly when the argument is 0. Output and error are unchanged. |
| Results.SetOutput | src/main/java/com/example/shellexecutor/model/ExecuteResult.java:5-8 | The generated setter replaces only the output. |
| Results.SetError | src/main/java/com/example/shellexecutor/model/ExecuteResult.java:5-9 | The generated setter replaces only the error. |
| Results.SetSuccess | src/main/java/com/example/shellexecutor/model/ExecuteResult.java:5-10 | The generated setter replaces only the `success` flag. |
| Results.SetSuccessCanBreakConsistency | src/main/java/com/example/shellexecutor/model/ExecuteResult.java:5-15 | Since `setSuccess` is generated next to the hand-written `setExitCode`, the flag can be set to disagree with the exit code on any result. Setting it to `exitCode == 0` keeps the invariant. |
| Results.ConsistencyOnlyAfterSetExitCode | src/main/java/com/example/shellexecutor/model/ExecuteResult.java:7-15 | A default-constructed result has exit code 0 but is not successful. One exit-code assignment establishes the invariant, and SetOutput and SetError keep it. |
| ExecutionManager.Create | src/main/java/com/example/shellexecutor/service/ShellExecutionManager.java:22-34 | The new key holds a record with the given command and empty line lists. It is RUNNING, not finished, started now, with no exit code, end time, duration or message. Every other key is unchanged. |
| ExecutionManager.AppendOutput | src/main/java/com/example/shellexecutor/service/ShellExecutionManager.java:36-41 | An unknown id leaves the map unchanged. Otherwise the output list gains the line at its end, and the error list, identity and ending stay the same. |
| ExecutionManager.AppendError | src/main/java/com/example/shellexecutor/service/ShellExecutionManager.java:43-48 | The mirror of AppendOutput for the error list. |
| ExecutionManager.SetFinished | src/main/java/com/example/shellexecutor/service/ShellExecutionManager.java:50-59 | For a known id the record is finished with the given exit code. Its status is COMPLETED exactly when the code is 0 and FAILED otherwise. The end time is now and the duration is now minus start. The message and lines are kept. There is no status guard. |
| ExecutionManager.SetError | src/main/java/com/example/shellexecutor/service/ShellExecutionManager.java:61-71 | For a known id the record is finished and FAILED, with exit code 1 and the given message. The end time and duration are set as in SetFinished. |
| ExecutionManager.SetTimeout | src/main/java/com/example/shellexecutor/service/ShellExecutionManager.java:73-83 | For a known id the record is finished and TIMEOUT, with exit code -1 and the message "Command execution timed out". The end time and duration are set as in SetFinished. |
| ExecutionManager.GetOutput | src/main/java/com/example/shellexecutor/service/ShellExecutionManager.java:85-87 | Lookup returns exactly the stored record, or None when the id is absent. |
| ExecutionManager.CleanupExpiredOutputs | src/main/java/com/example/shellexecutor/service/ShellExecutionManager.java:89-96 | A key survives exactly when its record is not finished, has no end time, or ended at or after now minus the retention window. Surviving records are unchanged. |
| ExecutionManager.Expired | src/main/java/com/example/shellexecutor/service/ShellExecutionManager.java:94 | A record is removed exactly when it is finished, has an end time, and that end time is strictly before the cut-off. |
| ExecutionManager.UnfinishedSurvivesCleanup | src/main/java/com/example/shellexecutor/service/ShellExecutionManager.java:94 | A record that has not finished survives a sweep at any time. |
| ExecutionManager.CleanupIdempotent | src/main/java/com/example/shellexecutor/service/ShellExecutionManager.java:92-95 | A second sweep at the same instant removes nothing more. |
| ExecutionManager.CleanupMonotoneInTime | src/main/java/com/example/shellexecutor/service/ShellExecutionManager.java:91-94 | A later sweep keeps a subset of what an earlier sweep keeps. |
| ExecutionManager.CreatePreservesValid | src/main/java/com/example/shellexecutor/service/ShellExecutionManager.java:22-34 | Creating a record keeps every record filed under its own id and in a consistent running-or-finished shape. |
| ExecutionManager.CleanupPreservesValid | src/main/java/com/example/shellexecutor/service/ShellExecutionManager.java:89-96 | The sweep keeps the registry invariant. |
| ExecutionManager.ApplyPreservesValid | src/main/java/com/example/shellexecutor/service/ShellExecutionManager.java:36-83 | Each append and each terminal setter keeps the registry invariant. After any setter, the exit code agrees with the status (0 for COMPLETED, non-zero for FAILED, -1 for TIMEOUT) and the duration equals end minus start. |
| ExecutionManager.ApplyAllValid | src/main/java/com/example/shellexecutor/service/ShellExecutionManager.java:36-83 | Any sequence of appends and terminal setters keeps the registry invariant. |
| ExecutionManager.ApplyAllFrame | src/main/java/com/example/shellexecutor/service/ShellExecutionManager.java:36-83 | Events on one id never change another entry or the key set. They never change the record's id, command or start time. |
| ExecutionManager.ApplyAllOutLines | src/main/java/com/example/shellexecutor/service/ShellExecutionManager.java:36-41 | Under any interleaving, the output list grows by exactly the stdout lines in their order. |
| ExecutionManager.ApplyAllErrLines | src/main/java/com/example/shellexecutor/service/ShellExecutionManager.java:43-48 | Under any interleaving, the error list grows by exactly the stderr lines in their order. |
| ExecutionManager.ApplyAllEnding | src/main/java/com/example/shellexecutor/service/ShellExecutionManager.java:50-83 | The last terminal event alone decides finished, exit code, status, end time and duration. The last failure or timeout decides the message. With no terminal event, the ending is unchanged. |
| ExecutionManager.ApplyAllEffect | src/main/java/com/example/shellexecutor/service/ShellExecutionManager.java:36-83 | Combines the frame, both line lists and the ending for any sequence of events. |
| ExecutionManager.ApplyAllUnknown | src/main/java/com/example/shellexecutor/service/ShellExecutionManager.java:36-83 | Events addressed to an id that is not in the registry leave the registry unchanged. |
| ExecutionManager.LaterTerminalOverwrites | src/main/java/com/example/shellexecutor/service/ShellExecutionManager.java:50-83 | A timeout after a successful finish turns COMPLETED into TIMEOUT with exit code -1 and the later end time. |
| ExecutionManager.FinishKeepsEarlierMessage | src/main/java/com/example/shellexecutor/service/ShellExecutionManager.java:50-71 | A finish after a failure replaces the exit code but keeps the failure's message. |
| ExecutionManager.AppendAfterFinish | src/main/java/com/example/shellexecutor/service/ShellExecutionManager.java:36-59 | After the run is finished, an append still extends the output list. |
| Service.BuildCommand | src/main/java/com/example/shellexecutor/service/ShellService.java:27-33 | The argument vector is "cmd", "/c", command on Windows and "/bin/sh", "-c", command elsewhere. The command is one unmodified element. |
| Service.HostShell | src/main/java/com/example/shellexecutor/service/ShellService.java:24-33 | With `os.name` "Windows 10" the argument vector starts with "cmd". With "Linux" or "Mac OS X" it starts with "/bin/sh". The Windows test is whether the lower-cased name contains "win". |
| Service.ReadInputStream | src/main/java/com/example/shellexecutor/service/ShellService.java:35-47 | A null or empty stream gives "". An I/O error gives a failure with its message. Otherwise the text is exactly each line followed by the separator, in order. It contains every line followed by the separator, and `readLine` splits it back into the original lines. |
| Service.ExecuteCommand | src/main/java/com/example/shellexecutor/service/ShellService.java:49-90 | Every result satisfies success == (exitCode == 0). A blocked command gives -1 with the "forbidden" message. A start or wait exception gives 1 with its message. A timeout gives -1 with the "timed out" message and no output. A clean exit gives the exit value and the joined stdout and stderr. A read failure gives 1 with its message, and keeps stdout if only stderr failed. |
| Service.BlockedIgnoresProcess | src/main/java/com/example/shellexecutor/service/ShellService.java:56-65 | For a blocked command the result does not depend on the process, because the guard runs before any process starts. |
| Service.BlockedAndTimeoutDistinguishable | src/main/java/com/example/shellexecutor/service/ShellService.java:56-74 | A blocked result and a timeout result share exit code -1 but have different error texts. |
| Service.SyncOutputReadsBack | src/main/java/com/example/shellexecutor/service/ShellService.java:76-78 | On a clean exit, success follows the exit value, and the output splits back into exactly the stdout lines. |
| Service.HasSuppliedId | src/main/java/com/example/shellexecutor/service/ShellService.java:105-106 | A request's id is used only when it is neither null nor empty. |
| Service.ExecuteCommandAsync | src/main/java/com/example/shellexecutor/service/ShellService.java:92-142 | A blocked request returns a new id, even when one was supplied. That id holds a finished FAILED record with exit code 1, the "forbidden" message and no lines, and nothing is launched. An allowed request returns the supplied non-empty id and leaves the registry as it was. Without a supplied id, it returns a new id holding a RUNNING record. The registry is exactly the result of the registry's create call on the new id, followed by its error call when the request is blocked. Other entries are untouched. |
| Service.AsyncStartPreservesValid | src/main/java/com/example/shellexecutor/service/ShellService.java:98-108 | The asynchronous call keeps the registry invariant on every path. |
| Service.IsRunOf | src/main/java/com/example/shellexecutor/service/ShellService.java:113-161 | A run whose start fails records only the waiter's failure with the exception message. Otherwise the stdout reader delivers exactly its stream's lines in order, and so does the stderr reader. The waiter issues exactly one terminal event matching how waiting ended. The three may interleave in any order. |
| Service.AsyncRunOutcome | src/main/java/com/example/shellexecutor/service/ShellService.java:113-161 | After any history a run can produce, the record is finished and holds exactly the lines each reader delivered, in order. A start failure gives FAILED with exit code 1 and the message. An exit gives its code, COMPLETED exactly when the code is 0, and no message. A timeout gives TIMEOUT with -1. A wait exception gives FAILED with exit code 1 and its message. |
| Service.AsyncBlockedIgnoresSuppliedId | src/main/java/com/example/shellexecutor/service/ShellService.java:98-103 | A blocked request with a supplied id gets a different, new id. That id resolves to a FAILED record with the "forbidden" message, and nothing is launched. |
| Service.AsyncUnknownSuppliedIdNeverResolves | src/main/java/com/example/shellexecutor/service/ShellService.java:105-141 | If the supplied id is not in the registry, it is returned, but all background updates are lost and lookup of the id stays empty. |
| Service.AsyncRunFromRequest | src/main/java/com/example/shellexecutor/service/ShellService.java:105-141 | An allowed request without an id, followed by any history of its run, leaves a finished record with the command and all delivered lines under the returned id. No other entry changes. |
| Service.SyncAndAsyncAgreeOnOutput | src/main/java/com/example/shellexecutor/service/ShellService.java:35-47 | For the same clean run, the synchronous output and error are the asynchronous record's line lists, joined. |
| Service.EchoHelloScenario | src/test/java/com/example/shellexecutor/service/ShellServiceTest.java:61-76 | "echo hello" that prints one line and exits 0 gives exit code 0, success, output "hello\n" and empty error. |
| Service.EchoTwoLinesScenario | src/main/java/com/example/shellexecutor/service/ShellService.java:113-161 | "echo a; echo b" whose waiter finishes before the second line arrives still ends with output lines ["a", "b"], COMPLETED, and exit code 0. |

## Left out

- Process spawning, `waitFor`, `destroyForcibly` and the operating system are not modelled. A process is the input value `Process`. The forced kill on timeout and its effect on the OS are not represented.
- Charset decoding (GBK on Windows, UTF-8 elsewhere) is not modelled. Streams are given as the decoded lines `readLine` would return.
- Threads and `CompletableFuture` scheduling are not modelled. The background work is a sequence of registry events (`IsRunOf`), and every interleaving of the three tasks is one such sequence.
- UUID generation is not modelled. The new id is a parameter (`freshId`).
- The wall clock is not modelled. Each clock reading is an `int` parameter in milliseconds. `LocalDateTime` and the 64-bit range of `executionTimeMs` are not modelled.
- The `@Scheduled` timing of the sweep is not modelled. One call of `CleanupExpiredOutputs` is one sweep.
- ExecutorConfig.Normalize: `String.toLowerCase` and `toUpperCase` are modelled for ASCII letters only. Locale-dependent and non-ASCII case mappings, which Java also performs, are outside the model.
- Reading the `os.name` system property is not modelled. The platform check `IS_WINDOWS` is the predicate `IsWindows` on a given `os.name` text. `BuildCommand` takes its value as a parameter (`HostShell` connects the two), and the line separator is a parameter `sep`.
- Logging calls are left out; they have no effect on results.
- The synchronous path reads the streams only after the process exits. A process that fills an OS pipe buffer would therefore block until the timeout. That depends on the OS and is not modelled.
- Each registry call is treated as atomic, and the registry as a value. `GetOutput` returns a copy of the record, whereas the source's `getOutput` returns the live object that the reader threads keep mutating. A run's history (`IsRunOf`) contains only that run's own events. `AsyncRunOutcome`'s "exactly the delivered lines" therefore assumes that no sweep, and no second request with the same supplied id, touches the id during the run.
- Exceptions thrown by `destroyForcibly` or by closing a reader are not modelled.
- In an asynchronous reader, an `IOException` is caught and ends that reader. The model delivers the lines read before the error and nothing after. A null stream, which would end the reader with an uncaught exception, delivers no lines.
- ShellRouteService.java (remote routing over Dubbo's `URL.valueOf` and `RpcContext`) is not part of this model, because it wraps a foreign RPC library with ambient state.
- CommandExecutor.java (a wrapper over Apache commons-exec that the services do not use) is not part of this model.
- ShellController.java, ShellRouteController.java, ShellExecutorServiceImpl.java, ShellExecutorService.java and ShellExecutorApplication.java are HTTP mapping, RPC delegation and Spring wiring. They are not part of this model.

=== FILE: config.dfy ===
/** The executor's configuration and its command guard: which command strings
    may be handed to the shell at all. */
module ExecutorConfig {
  import opened Wrappers
  import opened Text

  /** The configurable settings of the executor. Durations are milliseconds. */
  datatype Config = Config(
    blockedCommands: seq<string>,
    dangerousKeywords: seq<string>,
    commandTimeoutMs: int,
    outputExpirationMs: int,
    cleanupIntervalMs: int)

  /** Keywords that block a command wherever they occur in it. */
  const DefaultDangerousKeywords: seq<string> := [
    "rm -rf", "format", "mkfs", "dd if=", "fdisk",
    ":(){:|:&};:", "fork bomb",
    "chmod 777", "chmod -R 777",
    "> /dev/", "dd of=/dev/",
    "mv /* ", "rm /* ",
    "> /etc/passwd", "> /etc/shadow",
    "shutdown", "reboot", "init 0", "init 6"
  ]

  /** The settings in force when nothing overrides them: no exactly-blocked
      commands, a one-minute timeout, a thirty-minute retention window and a
      five-minute sweep period. */
  const DefaultConfig: Config := Config([], DefaultDangerousKeywords, 60000, 1800000, 300000)

  /** Lower-case first, then trim, in that order. */
  function Normalize(command: string): string {
    Trim(Lower(command))
  }

  /** The normalised command equals some lower-cased entry of the exact list. */
  predicate MatchesBlocked(normalized: string, blocked: seq<string>) {
    exists i | 0 <= i < |blocked| :: normalized == Lower(blocked[i])
  }

  /** The normalised command contains some lower-cased keyword. */
  predicate MatchesKeyword(normalized: string, keywords: seq<string>) {
    exists i | 0 <= i < |keywords| :: Contains(normalized, Lower(keywords[i]))
  }

  /** Reference definition of the guard: a missing or blank command is refused,
      and so is one that matches the exact list or contains a keyword. */
  predicate Blocked(cfg: Config, command: Option<string>) {
    || command.None?
    || IsBlank(command.value)
    || MatchesBlocked(Normalize(command.value), cfg.blockedCommands)
    || MatchesKeyword(Normalize(command.value), cfg.dangerousKeywords)
  }

  /** The guard as the configuration object runs it: a blank check, then one
      pass over the exact list, then one pass over the keywords. */
  method IsCommandBlocked(cfg: Config, command: Option<string>) returns (blocked: bool)
    ensures command.None? ==> blocked
    ensures command.Some? && IsBlank(command.value) ==> blocked
    ensures command.Some? && !IsBlank(command.value) ==>
              (blocked <==> || MatchesBlocked(Normalize(command.value), cfg.blockedCommands)
                            || MatchesKeyword(Normalize(command.value), cfg.dangerousKeywords))
    ensures blocked == Blocked(cfg, command)
  {
    if command.None? || IsBlank(command.value) {
      return true;
    }
    var normalized := Trim(Lower(command.value));
    var i := 0;
    while i < |cfg.blockedCommands|
      invariant 0 <= i <= |cfg.blockedCommands|
      invariant forall j :: 0 <= j < i ==> normalized != Lower(cfg.blockedCommands[j])
    {
      if normalized == Lower(cfg.blockedCommands[i]) {
        return true;
      }
      i := i + 1;
    }
    var k := 0;
    while k < |cfg.dangerousKeywords|
      invariant 0 <= k <= |cfg.dangerousKeywords|
      invariant forall j :: 0 <= j < k ==> !Contains(normalized, Lower(cfg.dangerousKeywords[j]))
    {
      if Contains(normalized, Lower(cfg.dangerousKeywords[k])) {
        return true;
      }
      k := k + 1;
    }
    return false;
  }

  // ---------------------------------------------------------------------------
  // Properties of the guard

  /** Whitespace padding on either side never changes the decision. */
  lemma PaddingInsensitive(cfg: Config, p: string, c: string, q: string)
    requires AllTrimmable(p) && AllTrimmable(q)
    ensures Blocked(cfg, Some(p + c + q)) == Blocked(cfg, Some(c))
  {
    TrimPadded(p, c, q);
    TrimLower(p + c + q);
    TrimLower(c);
  }

  /** The decision on a command equals the decision on its trimmed form. */
  lemma TrimInsensitive(cfg: Config, c: string)
    ensures Blocked(cfg, Some(c)) == Blocked(cfg, Some(Trim(c)))
  {
    var i, j := TrimShape(c);
    var p, q := c[..i], c[j..];
    assert c == p + c[i..j] + q by {
      assert c[..j] == p + c[i..j];
      assert c == c[..j] + q;
    }
    PaddingInsensitive(cfg, p, Trim(c), q);
  }

  /** Upper-casing the ASCII letters of a command never changes the decision. */
  lemma CaseInsensitive(cfg: Config, c: string)
    ensures Blocked(cfg, Some(Upper(c))) == Blocked(cfg, Some(c))
  {
    BlankUpper(c);
    LowerOfUpper(c);
  }

  /** Upper-cased and whitespace-padded: the combined insensitivity. */
  lemma CaseAndPaddingInsensitive(cfg: Config, p: string, c: string, q: string)
    requires AllTrimmable(p) && AllTrimmable(q)
    ensures Blocked(cfg, Some(p + Upper(c) + q)) == Blocked(cfg, Some(c))
  {
    PaddingInsensitive(cfg, p, Upper(c), q);
    CaseInsensitive(cfg, c);
  }

  /** An exact-list entry that begins or ends with whitespace can never match,
      because entries are lower-cased but not trimmed while the command is
      trimmed. */
  lemma PaddedEntryNeverMatches(c: string, entry: string)
    requires |entry| > 0
    requires IsTrimmable(entry[0]) || IsTrimmable(entry[|entry| - 1])
    ensures Normalize(c) != Lower(entry)
  {
    var i, j := TrimShape(Lower(c));
  }

  /** A keyword that ends in whitespace never occurs at the very end of a
      normalised command, because trimming removed the trailing whitespace. */
  lemma SpaceEndedKeywordNeverAtEnd(c: string, kw: string)
    requires |kw| > 0 && IsTrimmable(kw[|kw| - 1])
    ensures !OccursAt(Normalize(c), Lower(kw), |Normalize(c)| - |kw|)
  {
    var i, j := TrimShape(Lower(c));
  }

  // The default root-glob keywords for `rm` and `mv` end in a space, so the
  // commands themselves, with nothing after the glob, pass the guard, while
  // the same command with an argument after the glob is blocked.
  lemma GlobAtEndAllowed()
    ensures !Blocked(DefaultConfig, Some("rm /*"))
    ensures !Blocked(DefaultConfig, Some("mv /*"))
    ensures Blocked(DefaultConfig, Some("rm /* tmp"))
  {
    assert Normalize("rm /*") == "rm /*" by {
      assert TrimStart(Lower("rm /*")) == Lower("rm /*");
    }
    ShortFreeOfDefaultKeywords("rm /*");
    assert Normalize("mv /*") == "mv /*" by {
      assert TrimStart(Lower("mv /*")) == Lower("mv /*");
    }
    ShortFreeOfDefaultKeywords("mv /*");
    assert Normalize("rm /* tmp") == "rm /* tmp" by {
      assert TrimStart(Lower("rm /* tmp")) == Lower("rm /* tmp");
    }
    assert OccursAt("rm /* tmp", Lower(DefaultDangerousKeywords[12]), 0);
  }

  /** Only two default keywords are at most five characters long, "mkfs" and
      "fdisk", so a command that short containing neither 'k' nor 'f' contains
      no default keyword. */
  lemma ShortFreeOfDefaultKeywords(n: string)
    requires |n| <= 5 && 'k' !in n && 'f' !in n
    ensures !MatchesKeyword(n, DefaultDangerousKeywords)
  {
    forall k | 0 <= k < |DefaultDangerousKeywords|
      ensures !Contains(n, Lower(DefaultDangerousKeywords[k]))
    {
      var kw := Lower(DefaultDangerousKeywords[k]);
      if k == 2 {
        AbsentCharRulesOut(n, kw, 1);
      } else if k == 4 {
        AbsentCharRulesOut(n, kw, 0);
      } else {
        assert |kw| > 5;
      }
    }
  }

  /** Adding entries to either list never turns a blocked command into an
      allowed one. */
  lemma Monotonic(cfg: Config, cfg': Config, command: Option<string>)
    requires forall i | 0 <= i < |cfg.blockedCommands| :: cfg.blockedCommands[i] in cfg'.blockedCommands
    requires forall i | 0 <= i < |cfg.dangerousKeywords| :: cfg.dangerousKeywords[i] in cfg'.dangerousKeywords
    ensures Blocked(cfg, command) ==> Blocked(cfg', command)
  {
    if command.Some? && !IsBlank(command.value) {
      var n := Normalize(command.value);
      if MatchesBlocked(n, cfg.blockedCommands) {
        var i :| 0 <= i < |cfg.blockedCommands| && n == Lower(cfg.blockedCommands[i]);
        var j :| 0 <= j < |cfg'.blockedCommands| && cfg'.blockedCommands[j] == cfg.blockedCommands[i];
        assert n == Lower(cfg'.blockedCommands[j]);
      }
      if MatchesKeyword(n, cfg.dangerousKeywords) {
        var i :| 0 <= i < |cfg.dangerousKeywords| && Contains(n, Lower(cfg.dangerousKeywords[i]));
        var j :| 0 <= j < |cfg'.dangerousKeywords| && cfg'.dangerousKeywords[j] == cfg.dangerousKeywords[i];
        assert Contains(n, Lower(cfg'.dangerousKeywords[j]));
      }
    }
  }

  /** With the default keywords, a dangerous word anywhere in the command blocks
      it even though no exact entry matches. */
  lemma ShutdownInsideCommandBlocked()
    ensures !MatchesBlocked(Normalize("echo shutdown now"), ["rm -rf /", "format c:", "shutdown"])
    ensures Blocked(DefaultConfig, Some("echo shutdown now"))
  {
    var n := Normalize("echo shutdown now");
    assert TrimStart(Lower("echo shutdown now")) == Lower("echo shutdown now");
    assert n == "echo shutdown now";
    assert OccursAt(n, Lower("shutdown"), 5);
    assert DefaultDangerousKeywords[15] == "shutdown";
  }

  /** Every default keyword, lower-cased, holds one of these characters, at the
      position `MarkerIndex` gives. Entry k of `MarkerIndex` belongs to entry k
      of `DefaultDangerousKeywords`; `FreeOfDefaultKeywords` checks every pair,
      so editing the keyword list without this one fails verification. */
  const KeywordMarkers: string := "rfmd:>si"
  const MarkerIndex: seq<int> := [
    0, 0, 0, 0, 0,    // "rm -rf", "format", "mkfs", "dd if=", "fdisk": r f m d f
    0, 0,             // ":(){:|:&};:", "fork bomb": ':' f
    2, 2,             // "chmod 777", "chmod -R 777": m m
    0, 0,             // "> /dev/", "dd of=/dev/": '>' d
    0, 0,             // the root-glob keywords for mv and rm: m r
    0, 0,             // "> /etc/passwd", "> /etc/shadow": '>' '>'
    0, 0, 0, 0        // "shutdown", "reboot", "init 0", "init 6": s r i i
  ]

  /** A normalised command that uses none of the marker characters contains no
      default keyword. */
  lemma FreeOfDefaultKeywords(n: string)
    requires forall i | 0 <= i < |n| :: n[i] !in KeywordMarkers
    ensures !MatchesKeyword(n, DefaultDangerousKeywords)
  {
    forall k | 0 <= k < |DefaultDangerousKeywords|
      ensures !Contains(n, Lower(DefaultDangerousKeywords[k]))
    {
      var kw := Lower(DefaultDangerousKeywords[k]);
      assert kw[MarkerIndex[k]] in KeywordMarkers;
      AbsentCharRulesOut(n, kw, MarkerIndex[k]);
    }
  }

  /** With the default keywords and no exact entries, the ordinary commands of
      the scenarios below are allowed. */
  lemma EchoCommandsAllowed()
    ensures !Blocked(DefaultConfig, Some("echo hello"))
    ensures !Blocked(DefaultConfig, Some("echo a; echo b"))
  {
    assert TrimStart(Lower("echo hello")) == Lower("echo hello");
    assert Normalize("echo hello") == "echo hello";
    FreeOfDefaultKeywords("echo hello");
    assert TrimStart(Lower("echo a; echo b")) == Lower("echo a; echo b");
    assert Normalize("echo a; echo b") == "echo a; echo b";
    FreeOfDefaultKeywords("echo a; echo b");
  }
}

=== FILE: registry.dfy ===
/** The in-memory execution registry: one record per asynchronous run, keyed by
    execution id. Every operation is a pure map-to-map update; time is an
    abstract count of milliseconds supplied by the caller. */
module ExecutionManager {
  import opened Wrappers
  import opened Results
  import opened ExecutorConfig

  datatype Status = Pending | Running | Completed | Failed | Timeout {
    /** The text stored in the record's `status` field. */
    function Name(): string {
      match this
      case Pending => "PENDING"
      case Running => "RUNNING"
      case Completed => "COMPLETED"
      case Failed => "FAILED"
      case Timeout => "TIMEOUT"
    }

    predicate IsTerminal() {
      Completed? || Failed? || Timeout?
    }
  }

  /** One tracked execution. Fields that Java leaves `null` until the run ends
      are options. */
  datatype Record = Record(
    executionId: string,
    command: Option<string>,
    outputLines: seq<string>,
    errorLines: seq<string>,
    finished: bool,
    exitCode: Option<Int32>,
    startTime: int,
    endTime: Option<int>,
    status: Status,
    executionTimeMs: Option<int>,
    errorMessage: Option<string>)

  type Registry = map<string, Record>

  const TimeoutMessage: string := "Command execution timed out"

  /** Every record a registry operation can produce is in one of two shapes:
      running with nothing recorded about its end, or finished with a terminal
      status, an exit code agreeing with that status, and a duration measured
      from its start. */
  predicate ValidRecord(rec: Record) {
    && (rec.finished <==> rec.status.IsTerminal())
    && rec.status != Pending
    && (!rec.finished ==> rec.exitCode.None? && rec.endTime.None? && rec.executionTimeMs.None?)
    && (rec.finished ==>
          && rec.exitCode.Some? && rec.endTime.Some?
          && rec.executionTimeMs == Some(rec.endTime.value - rec.startTime))
    && (rec.status == Completed ==> rec.exitCode == Some(0))
    && (rec.status == Failed ==> rec.exitCode.Some? && rec.exitCode.value != 0)
    && (rec.status == Timeout ==> rec.exitCode == Some(-1) && rec.errorMessage == Some(TimeoutMessage))
  }

  /** Each record is filed under its own id and is valid. */
  predicate Valid(reg: Registry) {
    forall id | id in reg :: reg[id].executionId == id && ValidRecord(reg[id])
  }

  /** Only the entry under `id` may differ; the key set is the same. */
  predicate OnlyChanged(reg: Registry, reg': Registry, id: string) {
    && reg'.Keys == reg.Keys
    && forall k | k in reg && k != id :: reg'[k] == reg[k]
  }

  /** Two records agree on the fields fixed at creation. */
  predicate SameIdentity(a: Record, b: Record) {
    a.executionId == b.executionId && a.command == b.command && a.startTime == b.startTime
  }

  /** Two records agree on everything that describes how the run ended. */
  predicate SameEnding(a: Record, b: Record) {
    && a.finished == b.finished && a.exitCode == b.exitCode && a.endTime == b.endTime
    && a.status == b.status && a.executionTimeMs == b.executionTimeMs && a.errorMessage == b.errorMessage
  }

  /** Stores a new running record with empty line lists under `id`. The id is
      supplied by the caller (the source draws a random UUID). */
  function Create(reg: Registry, id: string, command: Option<string>, now: int): (r: Registry)
    ensures id in r && r.Keys == reg.Keys + {id}
    ensures forall k | k in reg && k != id :: r[k] == reg[k]
    ensures r[id].executionId == id && r[id].command == command
    ensures r[id].outputLines == [] && r[id].errorLines == []
    ensures !r[id].finished && r[id].status.Name() == "RUNNING" && r[id].startTime == now
    ensures r[id].exitCode.None? && r[id].endTime.None? && r[id].errorMessage.None?
    ensures r[id].executionTimeMs.None?
  {
    reg[id := Record(id, command, [], [], false, None, now, None, Running, None, None)]
  }

  /** Appends one stdout line; an unknown id leaves the registry as it is. */
  function AppendOutput(reg: Registry, id: string, line: string): (r: Registry)
    ensures id !in reg ==> r == reg
    ensures id in reg ==> && OnlyChanged(reg, r, id)
                          && r[id].outputLines == reg[id].outputLines + [line]
                          && r[id].errorLines == reg[id].errorLines
                          && SameIdentity(reg[id], r[id]) && SameEnding(reg[id], r[id])
  {
    if id in reg then reg[id := reg[id].(outputLines := reg[id].outputLines + [line])] else reg
  }

  /** Appends one stderr line; an unknown id leaves the registry as it is. */
  function AppendError(reg: Registry, id: string, line: string): (r: Registry)
    ensures id !in reg ==> r == reg
    ensures id in reg ==> && OnlyChanged(reg, r, id)
                          && r[id].errorLines == reg[id].errorLines + [line]
                          && r[id].outputLines == reg[id].outputLines
                          && SameIdentity(reg[id], r[id]) && SameEnding(reg[id], r[id])
  {
    if id in reg then reg[id := reg[id].(errorLines := reg[id].errorLines + [line])] else reg
  }

  /** The part common to the three terminal setters. */
  function Close(rec: Record, code: Int32, status: Status, now: int): Record {
    rec.(finished := true, exitCode := Some(code), endTime := Some(now),
         executionTimeMs := Some(now - rec.startTime), status := status)
  }

  /** Records a natural exit. There is no guard on the current status. The
      error message is left as it was. */
  function SetFinished(reg: Registry, id: string, code: Int32, now: int): (r: Registry)
    ensures id !in reg ==> r == reg
    ensures id in reg ==> && OnlyChanged(reg, r, id)
                          && r[id].finished && r[id].exitCode == Some(code)
                          && (r[id].status.Name() == "COMPLETED" <==> code == 0)
                          && (r[id].status.Name() == "FAILED" <==> code != 0)
                          && r[id].endTime == Some(now)
                          && r[id].executionTimeMs == Some(now - reg[id].startTime)
                          && r[id].errorMessage == reg[id].errorMessage
                          && r[id].outputLines == reg[id].outputLines
                          && r[id].errorLines == reg[id].errorLines
                          && SameIdentity(reg[id], r[id])
  {
    if id in reg then reg[id := Close(reg[id], code, if code == 0 then Completed else Failed, now)]
    else reg
  }

  /** Records a failure with a message (possibly `null`). No status guard. */
  function SetError(reg: Registry, id: string, message: Option<string>, now: int): (r: Registry)
    ensures id !in reg ==> r == reg
    ensures id in reg ==> && OnlyChanged(reg, r, id)
                          && r[id].finished && r[id].exitCode == Some(1)
                          && r[id].status.Name() == "FAILED"
                          && r[id].endTime == Some(now)
                          && r[id].executionTimeMs == Some(now - reg[id].startTime)
                          && r[id].errorMessage == message
                          && r[id].outputLines == reg[id].outputLines
                          && r[id].errorLines == reg[id].errorLines
                          && SameIdentity(reg[id], r[id])
  {
    if id in reg then reg[id := Close(reg[id], 1, Failed, now).(errorMessage := message)] else reg
  }

  /** Records a timeout with the fixed message. No status guard. */
  function SetTimeout(reg: Registry, id: string, now: int): (r: Registry)
    ensures id !in reg ==> r == reg
    ensures id in reg ==> && OnlyChanged(reg, r, id)
                          && r[id].finished && r[id].exitCode == Some(-1)
                          && r[id].status.Name() == "TIMEOUT"
                          && r[id].endTime == Some(now)
                          && r[id].executionTimeMs == Some(now - reg[id].startTime)
                          && r[id].errorMessage == Some("Command execution timed out")
                          && r[id].outputLines == reg[id].outputLines
                          && r[id].errorLines == reg[id].errorLines
                          && SameIdentity(reg[id], r[id])
  {
    if id in reg then reg[id := Close(reg[id], -1, Timeout, now).(errorMessage := Some(TimeoutMessage))]
    else reg
  }

  /** Lookup; `None` plays the part of Java's `null`. */
  function GetOutput(reg: Registry, id: string): (r: Option<Record>)
    ensures r.Some? <==> id in reg
    ensures r.Some? ==> r.value == reg[id]
  {
    if id in reg then Some(reg[id]) else None
  }

  /** A record the sweep removes: finished, with an end time strictly before the
      cut-off. */
  predicate Expired(rec: Record, cutoff: int) {
    rec.finished && rec.endTime.Some? && rec.endTime.value < cutoff
  }

  /** One sweep at time `now`: drops every record that ended more than the
      retention window ago and keeps the others untouched. */
  function CleanupExpiredOutputs(reg: Registry, cfg: Config, now: int): (r: Registry)
    ensures forall id :: id in r <==> id in reg && !Expired(reg[id], now - cfg.outputExpirationMs)
    ensures forall id | id in r :: r[id] == reg[id]
  {
    map id | id in reg && !Expired(reg[id], now - cfg.outputExpirationMs) :: reg[id]
  }

  // ---------------------------------------------------------------------------
  // Properties of the sweep

  /** A record that has not finished survives every sweep, whatever its age. */
  lemma UnfinishedSurvivesCleanup(reg: Registry, cfg: Config, now: int, id: string)
    requires id in reg && !reg[id].finished
    ensures GetOutput(CleanupExpiredOutputs(reg, cfg, now), id) == Some(reg[id])
  {
  }

  /** A second sweep at the same time removes nothing more. */
  lemma CleanupIdempotent(reg: Registry, cfg: Config, now: int)
    ensures CleanupExpiredOutputs(CleanupExpiredOutputs(reg, cfg, now), cfg, now)
            == CleanupExpiredOutputs(reg, cfg, now)
  {
  }

  /** A later sweep removes at least what an earlier one would have. */
  lemma CleanupMonotoneInTime(reg: Registry, cfg: Config, t: int, t': int)
    requires t <= t'
    ensures CleanupExpiredOutputs(reg, cfg, t').Keys <= CleanupExpiredOutputs(reg, cfg, t).Keys
  {
  }

  // ---------------------------------------------------------------------------
  // The registry invariant

  /** Creating a record keeps the registry valid. */
  lemma CreatePreservesValid(reg: Registry, id: string, command: Option<string>, now: int)
    requires Valid(reg)
    ensures Valid(Create(reg, id, command, now))
  {
  }

  /** The sweep keeps the registry valid. */
  lemma CleanupPreservesValid(reg: Registry, cfg: Config, now: int)
    requires Valid(reg)
    ensures Valid(CleanupExpiredOutputs(reg, cfg, now))
  {
  }

  // ---------------------------------------------------------------------------
  // Sequences of operations on one execution

  /** What one execution's background tasks do to the registry: a reader
      appends a line, or the waiter applies one of the terminal setters. */
  datatype Event =
    | OutLine(line: string)
    | ErrLine(line: string)
    | Finish(exitCode: Int32, at: int)
    | Fail(message: Option<string>, at: int)
    | TimedOut(at: int)
  {
    predicate IsTerminal() {
      Finish? || Fail? || TimedOut?
    }
  }

  function Apply(reg: Registry, id: string, e: Event): Registry {
    match e
    case OutLine(line) => AppendOutput(reg, id, line)
    case ErrLine(line) => AppendError(reg, id, line)
    case Finish(code, at) => SetFinished(reg, id, code, at)
    case Fail(message, at) => SetError(reg, id, message, at)
    case TimedOut(at) => SetTimeout(reg, id, at)
  }

  /** The events applied one after the other, first to last. */
  function ApplyAll(reg: Registry, id: string, events: seq<Event>): Registry
    decreases |events|
  {
    if events == [] then reg else ApplyAll(Apply(reg, id, events[0]), id, events[1..])
  }

  /** The stdout lines carried by `events`, in order. */
  function OutLines(events: seq<Event>): seq<string>
    decreases |events|
  {
    if events == [] then []
    else (if events[0].OutLine? then [events[0].line] else []) + OutLines(events[1..])
  }

  /** The stderr lines carried by `events`, in order. */
  function ErrLines(events: seq<Event>): seq<string>
    decreases |events|
  {
    if events == [] then []
    else (if events[0].ErrLine? then [events[0].line] else []) + ErrLines(events[1..])
  }

  /** The last terminal event, if any. */
  function LastTerminal(events: seq<Event>): (r: Option<Event>)
    ensures r.Some? ==> r.value.IsTerminal()
    decreases |events|
  {
    if events == [] then None
    else
      var later := LastTerminal(events[1..]);
      if later.Some? then later
      else if events[0].IsTerminal() then Some(events[0]) else None
  }

  /** The message left by the last event that writes one, or `prior` if none does. */
  function LastMessage(events: seq<Event>, prior: Option<string>): Option<string>
    decreases |events|
  {
    if events == [] then prior
    else
      var m := match events[0]
               case Fail(message, _) => message
               case TimedOut(_) => Some(TimeoutMessage)
               case _ => prior;
      LastMessage(events[1..], m)
  }

  /** The fields the terminal event `e` sets on a record that started at `start`. */
  predicate EndedBy(rec: Record, e: Event, start: int)
    requires e.IsTerminal()
  {
    && rec.finished
    && rec.endTime == Some(e.at)
    && rec.executionTimeMs == Some(e.at - start)
    && match e
       case Finish(code, _) =>
         rec.exitCode == Some(code) && rec.status == (if code == 0 then Completed else Failed)
       case Fail(_, _) => rec.exitCode == Some(1) && rec.status == Failed
       case TimedOut(_) => rec.exitCode == Some(-1) && rec.status == Timeout
  }

  /** A single event touches only its own record, and never its identity. */
  lemma ApplyFrameStep(reg: Registry, id: string, e: Event)
    requires id in reg
    ensures var r := Apply(reg, id, e);
            && OnlyChanged(reg, r, id)
            && SameIdentity(reg[id], r[id])
  {
  }

  /** What a single event does to the line lists. */
  lemma ApplyLinesStep(reg: Registry, id: string, e: Event)
    requires id in reg
    ensures id in Apply(reg, id, e)
    ensures Apply(reg, id, e)[id].outputLines == reg[id].outputLines + (if e.OutLine? then [e.line] else [])
    ensures Apply(reg, id, e)[id].errorLines == reg[id].errorLines + (if e.ErrLine? then [e.line] else [])
  {
  }

  lemma OnlyChangedTransitive(a: Registry, b: Registry, c: Registry, id: string)
    requires OnlyChanged(a, b, id) && OnlyChanged(b, c, id)
    ensures OnlyChanged(a, c, id)
  {
  }

  /** Applying the events to a known execution leaves every other entry, and
      the record's identity, as it was. */
  lemma {:induction false} ApplyAllFrame(reg: Registry, id: string, events: seq<Event>)
    requires id in reg
    ensures OnlyChanged(reg, ApplyAll(reg, id, events), id)
    ensures SameIdentity(reg[id], ApplyAll(reg, id, events)[id])
    decreases |events|
  {
    if events != [] {
      var reg1 := Apply(reg, id, events[0]);
      ApplyFrameStep(reg, id, events[0]);
      ApplyAllFrame(reg1, id, events[1..]);
      var r := ApplyAll(reg1, id, events[1..]);
      assert r == ApplyAll(reg, id, events);
      OnlyChangedTransitive(reg, reg1, r, id);
    }
  }

  /** The output list grows by exactly the stdout lines, in the order they were
      appended, whatever the interleaving with other events. */
  lemma {:induction false} ApplyAllOutLines(reg: Registry, id: string, events: seq<Event>)
    requires id in reg
    ensures id in ApplyAll(reg, id, events)
    ensures ApplyAll(reg, id, events)[id].outputLines == reg[id].outputLines + OutLines(events)
    decreases |events|
  {
    if events != [] {
      var e := events[0];
      var reg1 := Apply(reg, id, e);
      ApplyLinesStep(reg, id, e);
      ApplyAllOutLines(reg1, id, events[1..]);
      assert ApplyAll(reg1, id, events[1..]) == ApplyAll(reg, id, events);
      var head := if e.OutLine? then [e.line] else [];
      assert OutLines(events) == head + OutLines(events[1..]);
      assert reg[id].outputLines + head + OutLines(events[1..])
          == reg[id].outputLines + (head + OutLines(events[1..]));
    }
  }

  /** The error list grows by exactly the stderr lines, in the order they were
      appended, whatever the interleaving with other events. */
  lemma {:induction false} ApplyAllErrLines(reg: Registry, id: string, events: seq<Event>)
    requires id in reg
    ensures id in ApplyAll(reg, id, events)
    ensures ApplyAll(reg, id, events)[id].errorLines == reg[id].errorLines + ErrLines(events)
    decreases |events|
  {
    if events != [] {
      var e := events[0];
      var reg1 := Apply(reg, id, e);
      ApplyLinesStep(reg, id, e);
      ApplyAllErrLines(reg1, id, events[1..]);
      assert ApplyAll(reg1, id, events[1..]) == ApplyAll(reg, id, events);
      var head := if e.ErrLine? then [e.line] else [];
      assert ErrLines(events) == head + ErrLines(events[1..]);
      assert reg[id].errorLines + head + ErrLines(events[1..])
          == reg[id].errorLines + (head + ErrLines(events[1..]));
    }
  }

  /** The last terminal event decides how the run ended, and the last
      message-writing event decides the message. */
  lemma {:induction false} ApplyAllEnding(reg: Registry, id: string, events: seq<Event>)
    requires id in reg
    ensures var r := ApplyAll(reg, id, events);
            && id in r
            && r[id].startTime == reg[id].startTime
            && r[id].errorMessage == LastMessage(events, reg[id].errorMessage)
            && (LastTerminal(events).Some? ==> EndedBy(r[id], LastTerminal(events).value, reg[id].startTime))
            && (LastTerminal(events).None? ==>
                  && r[id].finished == reg[id].finished && r[id].exitCode == reg[id].exitCode
                  && r[id].endTime == reg[id].endTime && r[id].status == reg[id].status
                  && r[id].executionTimeMs == reg[id].executionTimeMs)
    decreases |events|
  {
    if events != [] {
      var e := events[0];
      var reg1 := Apply(reg, id, e);
      assert id in reg1 && reg1[id].startTime == reg[id].startTime;
      ApplyAllEnding(reg1, id, events[1..]);
      if LastTerminal(events[1..]).None? && e.IsTerminal() {
        assert LastTerminal(events) == Some(e);
        assert EndedBy(reg1[id], e, reg[id].startTime);
      }
    }
  }

  /** Both halves together: the effect of any sequence of events on one known
      execution. */
  lemma ApplyAllEffect(reg: Registry, id: string, events: seq<Event>)
    requires id in reg
    ensures var r := ApplyAll(reg, id, events);
            && OnlyChanged(reg, r, id)
            && SameIdentity(reg[id], r[id])
            && r[id].outputLines == reg[id].outputLines + OutLines(events)
            && r[id].errorLines == reg[id].errorLines + ErrLines(events)
            && r[id].errorMessage == LastMessage(events, reg[id].errorMessage)
            && (LastTerminal(events).Some? ==> EndedBy(r[id], LastTerminal(events).value, reg[id].startTime))
            && (LastTerminal(events).None? ==>
                  && r[id].finished == reg[id].finished && r[id].exitCode == reg[id].exitCode
                  && r[id].endTime == reg[id].endTime && r[id].status == reg[id].status
                  && r[id].executionTimeMs == reg[id].executionTimeMs)
  {
    ApplyAllFrame(reg, id, events);
    ApplyAllOutLines(reg, id, events);
    ApplyAllErrLines(reg, id, events);
    ApplyAllEnding(reg, id, events);
  }

  /** Events addressed to an id the registry does not hold change nothing. */
  lemma {:induction false} ApplyAllUnknown(reg: Registry, id: string, events: seq<Event>)
    requires id !in reg
    ensures ApplyAll(reg, id, events) == reg
    decreases |events|
  {
    if events != [] {
      ApplyAllUnknown(Apply(reg, id, events[0]), id, events[1..]);
    }
  }

  /** Each append and each terminal setter keeps the registry valid: a
      record is running with no ending, or finished with a consistent one. */
  lemma ApplyPreservesValid(reg: Registry, id: string, e: Event)
    requires Valid(reg)
    ensures Valid(Apply(reg, id, e))
  {
    if id in reg {
      var r := Apply(reg, id, e);
      assert ValidRecord(r[id]);
      forall k | k in r ensures r[k].executionId == k && ValidRecord(r[k]) {
        if k != id {
          assert r[k] == reg[k];
        }
      }
    }
  }

  /** Every sequence of events keeps the registry valid. */
  lemma {:induction false} ApplyAllValid(reg: Registry, id: string, events: seq<Event>)
    requires Valid(reg)
    ensures Valid(ApplyAll(reg, id, events))
    decreases |events|
  {
    if events != [] {
      ApplyPreservesValid(reg, id, events[0]);
      ApplyAllValid(Apply(reg, id, events[0]), id, events[1..]);
    }
  }

  /** The terminal setters do not check the current status: a timeout recorded
      after a successful finish replaces it, so the last call wins. */
  lemma LaterTerminalOverwrites(reg: Registry, id: string, t1: int, t2: int)
    requires id in reg
    ensures SetFinished(reg, id, 0, t1)[id].status == Completed
    ensures var r := SetTimeout(SetFinished(reg, id, 0, t1), id, t2);
            r[id].status == Timeout && r[id].exitCode == Some(-1) && r[id].endTime == Some(t2)
  {
  }

  /** A finish after a failure keeps the failure's message while replacing its
      status and exit code. */
  lemma FinishKeepsEarlierMessage(reg: Registry, id: string, m: Option<string>, code: Int32, t1: int, t2: int)
    requires id in reg
    ensures var r := SetFinished(SetError(reg, id, m, t1), id, code, t2);
            r[id].errorMessage == m && r[id].exitCode == Some(code)
  {
  }

  /** A finished record is not frozen: a reader that appends after the waiter
      has finished the run still extends its line list. */
  lemma AppendAfterFinish(reg: Registry, id: string, code: Int32, t: int, line: string)
    requires id in reg
    ensures var r := AppendOutput(SetFinished(reg, id, code, t), id, line);
            r[id].finished && r[id].outputLines == reg[id].outputLines + [line]
  {
  }
}

=== FILE: results.dfy ===
/** The outcome of one synchronous run. The exit-code setter derives
    `success` from the code; the generated `success` setter can still set the
    flag on its own, though no path of the service calls it. */
module Results {
  import opened Wrappers

  /** Java's `int`. */
  type Int32 = x: int | -0x8000_0000 <= x < 0x8000_0000

  datatype ExecuteResult = ExecuteResult(
    exitCode: Int32,
    output: Option<string>,
    error: Option<string>,
    success: bool)

  /** The derived-field invariant. */
  predicate Consistent(r: ExecuteResult) {
    r.success == (r.exitCode == 0)
  }

  /** A freshly constructed result: every field at its Java default. */
  const NewResult: ExecuteResult := ExecuteResult(0, None, None, false)

  /** The custom exit-code setter, which also derives `success`. */
  function SetExitCode(r: ExecuteResult, code: Int32): (r': ExecuteResult)
    ensures r'.exitCode == code
    ensures r'.success <==> code == 0
    ensures r'.output == r.output && r'.error == r.error
    ensures Consistent(r')
  {
    r.(exitCode := code, success := code == 0)
  }

  /** The generated output setter. */
  function SetOutput(r: ExecuteResult, output: Option<string>): (r': ExecuteResult)
    ensures r'.output == output
    ensures r'.exitCode == r.exitCode && r'.success == r.success && r'.error == r.error
  {
    r.(output := output)
  }

  /** The generated error setter. */
  function SetError(r: ExecuteResult, error: Option<string>): (r': ExecuteResult)
    ensures r'.error == error
    ensures r'.exitCode == r.exitCode && r'.success == r.success && r'.output == r.output
  {
    r.(error := error)
  }

  /** The generated `success` setter: it assigns the flag and nothing else. */
  function SetSuccess(r: ExecuteResult, success: bool): (r': ExecuteResult)
    ensures r'.success == success
    ensures r'.exitCode == r.exitCode && r'.output == r.output && r'.error == r.error
  {
    r.(success := success)
  }

  /** The `success` setter can break the invariant on any result: setting the
      flag to the opposite of `exitCode == 0` makes it disagree with the code. */
  lemma SetSuccessCanBreakConsistency(r: ExecuteResult)
    ensures !Consistent(SetSuccess(r, r.exitCode != 0))
    ensures Consistent(SetSuccess(r, r.exitCode == 0))
  {
  }

  /** The default-constructed result breaks the invariant (exit code 0, yet not
      successful); one call of the exit-code setter repairs it whatever the
      code, and the output and error setters keep it. */
  lemma ConsistencyOnlyAfterSetExitCode(r: ExecuteResult, code: Int32, s: Option<string>)
    ensures NewResult.exitCode == 0 && !Consistent(NewResult)
    ensures Consistent(SetExitCode(r, code))
    ensures Consistent(r) ==> Consistent(SetOutput(r, s)) && Consistent(SetError(r, s))
  {
  }
}

=== FILE: service.dfy ===
/** The execution service with the operating system abstracted away. A
    process is an outcome supplied as input; the synchronous path maps it to
    an `ExecuteResult`, and the asynchronous path maps it to registry updates
    applied in any interleaving the three background tasks can produce. */
module Service {
  import opened Wrappers
  import opened Text
  import opened Results
  import opened ExecutorConfig
  import opened ExecutionManager

  const BlockedMessage: string := "命令被禁止执行"
  const SyncTimeoutMessage: string := "命令执行超时"

  /** The host is treated as Windows when its lower-cased `os.name` contains "win". */
  predicate IsWindows(osName: string) {
    Contains(Lower(osName), "win")
  }

  /** The argument vector handed to the process builder: the platform shell,
      its "run this string" flag, and the command as one element. */
  function BuildCommand(isWindows: bool, command: Option<string>): (argv: seq<Option<string>>)
    ensures |argv| == 3
    ensures argv[2] == command
    ensures isWindows ==> argv[0] == Some("cmd") && argv[1] == Some("/c")
    ensures !isWindows ==> argv[0] == Some("/bin/sh") && argv[1] == Some("-c")
  {
    if isWindows then [Some("cmd"), Some("/c"), command] else [Some("/bin/sh"), Some("-c"), command]
  }

  /** The shell chosen for typical `os.name` values: Windows hosts get `cmd /c`,
      Linux and macOS get `/bin/sh -c`. */
  lemma HostShell(command: Option<string>)
    ensures BuildCommand(IsWindows("Windows 10"), command)[0] == Some("cmd")
    ensures BuildCommand(IsWindows("Linux"), command)[0] == Some("/bin/sh")
    ensures BuildCommand(IsWindows("Mac OS X"), command)[0] == Some("/bin/sh")
  {
    assert OccursAt(Lower("Windows 10"), "win", 0);
    AbsentCharRulesOut(Lower("Linux"), "win", 0);
    AbsentCharRulesOut(Lower("Mac OS X"), "win", 0);
  }

  // ---------------------------------------------------------------------------
  // Abstract processes

  /** How reading a stream stops: at end of stream, or with an I/O exception
      carrying a message (possibly `null`). */
  datatype Ending = Eof | IoError(message: Option<string>)

  /** A process stream as the lines `readLine` returns from it before it
      stops; `NullStream` is a `null` stream reference. */
  datatype Stream = NullStream | Stream(lines: seq<string>, ending: Ending)

  /** How waiting for the process ends: an exit value within the timeout, the
      timeout elapsing, or an exception while waiting. */
  datatype Wait = Exited(exitValue: Int32) | WaitTimedOut | Interrupted(message: Option<string>)

  /** What the operating system does with one command: starting it throws, or
      it starts and then produces two streams and an end. */
  datatype Process =
    | SpawnFailed(message: Option<string>)
    | Spawned(stdout: Stream, stderr: Stream, wait: Wait)

  /** The lines a reader obtains from a stream before it stops. */
  function Delivered(s: Stream): seq<string> {
    match s
    case NullStream => []
    case Stream(lines, _) => lines
  }

  /** Drains a stream into one string, each line followed by the separator; an
      I/O exception propagates as a failure carrying its message. */
  function ReadInputStream(s: Stream, sep: string): (r: Result<string, Option<string>>)
    ensures s.NullStream? ==> r == Success("")
    ensures s.Stream? && s.ending.IoError? ==> r == Failure(s.ending.message)
    ensures s.Stream? && s.ending.Eof? && s.lines == [] ==> r == Success("")
    ensures s.Stream? && s.ending.Eof? ==> r == Success(Join(s.lines, sep))
    ensures r.Success? && s.Stream? && (sep == "\n" || sep == "\r\n")
            && (forall i :: 0 <= i < |s.lines| ==> NoLineBreak(s.lines[i]))
            ==> ReadLines(r.value) == s.lines
    ensures r.Success? && s.Stream? ==>
              forall i :: 0 <= i < |s.lines| ==> Contains(r.value, s.lines[i] + sep)
  {
    match s
    case NullStream => Success("")
    case Stream(lines, IoError(m)) => Failure(m)
    case Stream(lines, Eof) =>
      var text := Join(lines, sep);
      assert (sep == "\n" || sep == "\r\n") && (forall i :: 0 <= i < |lines| ==> NoLineBreak(lines[i]))
             ==> ReadLines(text) == lines by {
        if (sep == "\n" || sep == "\r\n") && (forall i :: 0 <= i < |lines| ==> NoLineBreak(lines[i])) {
          ReadLinesJoin(lines, sep);
        }
      }
      assert forall i :: 0 <= i < |lines| ==> Contains(text, lines[i] + sep) by {
        forall i | 0 <= i < |lines| ensures Contains(text, lines[i] + sep) {
          JoinContainsLine(lines, sep, i);
        }
      }
      Success(text)
  }

  // ---------------------------------------------------------------------------
  // Synchronous path

  /** The result of one synchronous run of `command` whose process behaves as
      `p`, with line separator `sep`. */
  function ExecuteCommand(cfg: Config, command: Option<string>, p: Process, sep: string): (r: ExecuteResult)
    ensures Consistent(r)
    ensures Blocked(cfg, command) ==>
              r.exitCode == -1 && r.error == Some(BlockedMessage) && r.output.None?
    ensures !Blocked(cfg, command) && p.SpawnFailed? ==>
              r.exitCode == 1 && r.error == p.message && r.output.None?
    ensures !Blocked(cfg, command) && p.Spawned? && p.wait.Interrupted? ==>
              r.exitCode == 1 && r.error == p.wait.message && r.output.None?
    ensures !Blocked(cfg, command) && p.Spawned? && p.wait.WaitTimedOut? ==>
              r.exitCode == -1 && r.error == Some(SyncTimeoutMessage) && r.output.None?
    ensures !Blocked(cfg, command) && p.Spawned? && p.wait.Exited? ==>
              var out := ReadInputStream(p.stdout, sep);
              var err := ReadInputStream(p.stderr, sep);
              && (out.Failure? ==> r.exitCode == 1 && r.error == out.error && r.output.None?)
              && (out.Success? && err.Failure? ==>
                    r.exitCode == 1 && r.error == err.error && r.output == Some(out.value))
              && (out.Success? && err.Success? ==>
                    && r.exitCode == p.wait.exitValue
                    && r.output == Some(out.value) && r.error == Some(err.value))
  {
    var result := NewResult;
    if Blocked(cfg, command) then
      Results.SetError(SetExitCode(result, -1), Some(BlockedMessage))
    else
      match p
      case SpawnFailed(m) => Results.SetError(SetExitCode(result, 1), m)
      case Spawned(stdout, stderr, wait) =>
        match wait
        case Interrupted(m) => Results.SetError(SetExitCode(result, 1), m)
        case WaitTimedOut => Results.SetError(SetExitCode(result, -1), Some(SyncTimeoutMessage))
        case Exited(code) =>
          var r1 := SetExitCode(result, code);
          match ReadInputStream(stdout, sep)
          case Failure(m) => Results.SetError(SetExitCode(r1, 1), m)
          case Success(out) =>
            var r2 := SetOutput(r1, Some(out));
            match ReadInputStream(stderr, sep)
            case Failure(m) => Results.SetError(SetExitCode(r2, 1), m)
            case Success(err) => Results.SetError(r2, Some(err))
  }

  /** The guard is consulted before any process exists: for a blocked command
      the result does not depend on what the process would have done. */
  lemma BlockedIgnoresProcess(cfg: Config, command: Option<string>, p: Process, q: Process, sep: string)
    requires Blocked(cfg, command)
    ensures ExecuteCommand(cfg, command, p, sep) == ExecuteCommand(cfg, command, q, sep)
  {
  }

  /** A rejected command and a timed-out one share exit code -1 but never share
      their error text. */
  lemma BlockedAndTimeoutDistinguishable(cfg: Config, c: Option<string>, d: Option<string>, p: Process, sep: string)
    requires Blocked(cfg, c) && !Blocked(cfg, d)
    requires p.Spawned? && p.wait.WaitTimedOut?
    ensures ExecuteCommand(cfg, c, p, sep).exitCode == ExecuteCommand(cfg, d, p, sep).exitCode == -1
    ensures ExecuteCommand(cfg, c, p, sep).error != ExecuteCommand(cfg, d, p, sep).error
  {
    assert BlockedMessage[0] != SyncTimeoutMessage[0] || BlockedMessage[1] != SyncTimeoutMessage[1]
        || BlockedMessage[2] != SyncTimeoutMessage[2];
  }

  /** On a clean exit the captured output reads back, line by line, as exactly
      the lines the process wrote to stdout. */
  lemma SyncOutputReadsBack(cfg: Config, command: Option<string>, p: Process, sep: string)
    requires !Blocked(cfg, command)
    requires p.Spawned? && p.wait.Exited? && p.stdout.Stream? && p.stdout.ending.Eof?
    requires p.stderr.Stream? && p.stderr.ending.Eof?
    requires sep == "\n" || sep == "\r\n"
    requires forall i :: 0 <= i < |p.stdout.lines| ==> NoLineBreak(p.stdout.lines[i])
    ensures var r := ExecuteCommand(cfg, command, p, sep);
            && r.exitCode == p.wait.exitValue && (r.success <==> p.wait.exitValue == 0)
            && r.output.Some? && ReadLines(r.output.value) == p.stdout.lines
  {
  }

  // ---------------------------------------------------------------------------
  // Asynchronous path

  /** The request of an asynchronous run; an execution id may be supplied. */
  datatype Request = Request(command: Option<string>, executionId: Option<string>)

  /** What the asynchronous call leaves behind when it returns: the id handed
      back to the caller, the registry, and whether a background run was
      launched. */
  datatype Started = Started(id: string, registry: Registry, launched: bool)

  /** A supplied id counts only when it is neither `null` nor empty. */
  predicate HasSuppliedId(req: Request) {
    req.executionId.Some? && req.executionId.value != ""
  }

  /** The synchronous part of an asynchronous run. `freshId` stands for the
      random id the registry would draw, `createdAt` and `rejectedAt` for the
      clock readings of the registry calls. */
  function ExecuteCommandAsync(cfg: Config, reg: Registry, req: Request, freshId: string,
                               createdAt: int, rejectedAt: int): (s: Started)
    ensures Blocked(cfg, req.command) ==>
              && s.id == freshId && !s.launched && s.id in s.registry
              && s.registry[s.id].finished
              && s.registry[s.id].status.Name() == "FAILED"
              && s.registry[s.id].exitCode == Some(1)
              && s.registry[s.id].errorMessage == Some(BlockedMessage)
              && s.registry[s.id].outputLines == [] && s.registry[s.id].errorLines == []
    ensures !Blocked(cfg, req.command) && HasSuppliedId(req) ==>
              s.id == req.executionId.value && s.registry == reg && s.launched
    ensures !Blocked(cfg, req.command) && !HasSuppliedId(req) ==>
              && s.id == freshId && s.launched && s.id in s.registry
              && s.registry[s.id].command == req.command
              && s.registry[s.id].status.Name() == "RUNNING" && !s.registry[s.id].finished
              && s.registry[s.id].outputLines == [] && s.registry[s.id].errorLines == []
    ensures Blocked(cfg, req.command) ==>
              s.registry == ExecutionManager.SetError(Create(reg, freshId, req.command, createdAt),
                                                      freshId, Some(BlockedMessage), rejectedAt)
    ensures !Blocked(cfg, req.command) && !HasSuppliedId(req) ==>
              s.registry == Create(reg, freshId, req.command, createdAt)
    ensures s.registry.Keys <= reg.Keys + {freshId}
    ensures forall k | k in reg && k != freshId :: k in s.registry && s.registry[k] == reg[k]
  {
    if Blocked(cfg, req.command) then
      var reg1 := Create(reg, freshId, req.command, createdAt);
      Started(freshId, ExecutionManager.SetError(reg1, freshId, Some(BlockedMessage), rejectedAt), false)
    else if HasSuppliedId(req) then
      Started(req.executionId.value, reg, true)
    else
      Started(freshId, Create(reg, freshId, req.command, createdAt), true)
  }

  /** The terminal events of a history, in order. */
  function Terminals(events: seq<Event>): (ts: seq<Event>)
    ensures forall i :: 0 <= i < |ts| ==> ts[i].IsTerminal()
    decreases |events|
  {
    if events == [] then []
    else (if events[0].IsTerminal() then [events[0]] else []) + Terminals(events[1..])
  }

  /** The waiter's single terminal event agrees with how waiting ended. */
  predicate WaiterReports(e: Event, w: Wait) {
    match w
    case Exited(code) => e.Finish? && e.exitCode == code
    case WaitTimedOut => e.TimedOut?
    case Interrupted(m) => e.Fail? && e.message == m
  }

  /** The histories one background run of `p` can produce. If starting fails,
      only the waiter's failure is recorded. Otherwise the stdout reader
      appends its lines in order, the stderr reader likewise, and the waiter
      issues exactly one terminal event; the three may interleave arbitrarily,
      and readers may still append after the terminal event. */
  predicate IsRunOf(p: Process, events: seq<Event>) {
    match p
    case SpawnFailed(m) => |events| == 1 && events[0].Fail? && events[0].message == m
    case Spawned(stdout, stderr, w) =>
      && OutLines(events) == Delivered(stdout)
      && ErrLines(events) == Delivered(stderr)
      && |Terminals(events)| == 1
      && WaiterReports(Terminals(events)[0], w)
  }

  lemma {:induction false} LastTerminalIsLastOfTerminals(events: seq<Event>)
    ensures Terminals(events) == [] ==> LastTerminal(events).None?
    ensures Terminals(events) != [] ==>
              LastTerminal(events) == Some(Terminals(events)[|Terminals(events)| - 1])
    decreases |events|
  {
    if events != [] {
      LastTerminalIsLastOfTerminals(events[1..]);
    }
  }

  /** Only terminal events write the message. */
  lemma {:induction false} LastMessageOfTerminals(events: seq<Event>, prior: Option<string>)
    ensures LastMessage(events, prior) == LastMessage(Terminals(events), prior)
    decreases |events|
  {
    if events != [] {
      var e := events[0];
      var m := match e
               case Fail(message, _) => message
               case TimedOut(_) => Some(TimeoutMessage)
               case _ => prior;
      LastMessageOfTerminals(events[1..], m);
      if e.IsTerminal() {
        assert Terminals(events) == [e] + Terminals(events[1..]);
        assert ([e] + Terminals(events[1..]))[1..] == Terminals(events[1..]);
      } else {
        assert Terminals(events) == Terminals(events[1..]);
      }
    }
  }

  /** The end state of an asynchronous execution after any history the run can
      produce: the record holds the command, exactly the stdout and stderr
      lines in the order each reader delivered them, and the ending the waiter
      reported. */
  lemma AsyncRunOutcome(reg: Registry, id: string, p: Process, events: seq<Event>)
    requires id in reg && reg[id].outputLines == [] && reg[id].errorLines == []
    requires reg[id].errorMessage.None?
    requires IsRunOf(p, events)
    ensures var r := ApplyAll(reg, id, events);
            && OnlyChanged(reg, r, id)
            && r[id].command == reg[id].command && r[id].finished
            && (p.SpawnFailed? ==>
                  && r[id].outputLines == [] && r[id].errorLines == []
                  && r[id].status == Failed && r[id].exitCode == Some(1)
                  && r[id].errorMessage == p.message)
            && (p.Spawned? ==>
                  && r[id].outputLines == Delivered(p.stdout)
                  && r[id].errorLines == Delivered(p.stderr))
            && (p.Spawned? && p.wait.Exited? ==>
                  && r[id].exitCode == Some(p.wait.exitValue)
                  && (r[id].status.Name() == "COMPLETED" <==> p.wait.exitValue == 0)
                  && (r[id].status.Name() == "FAILED" <==> p.wait.exitValue != 0)
                  && r[id].errorMessage.None?)
            && (p.Spawned? && p.wait.WaitTimedOut? ==>
                  && r[id].status == Timeout && r[id].exitCode == Some(-1)
                  && r[id].errorMessage == Some(TimeoutMessage))
            && (p.Spawned? && p.wait.Interrupted? ==>
                  && r[id].status == Failed && r[id].exitCode == Some(1)
                  && r[id].errorMessage == p.wait.message)
  {
    ApplyAllEffect(reg, id, events);
    LastTerminalIsLastOfTerminals(events);
    LastMessageOfTerminals(events, reg[id].errorMessage);
    var ts := Terminals(events);
    if p.SpawnFailed? {
      assert events == [events[0]];
      assert ts == [events[0]];
      assert OutLines(events) == [] && ErrLines(events) == [];
    } else {
      assert ts == [ts[0]];
      assert LastMessage(ts, None) == LastMessage([], match ts[0]
                                                    case Fail(message, _) => message
                                                    case TimedOut(_) => Some(TimeoutMessage)
                                                    case _ => None);
    }
  }

  /** A blocked asynchronous request is rejected at once under a new id, even
      when the caller supplied one, and the id resolves to a failed record with
      no output; nothing is launched. */
  lemma AsyncBlockedIgnoresSuppliedId(cfg: Config, reg: Registry, req: Request, freshId: string, t0: int, t1: int)
    requires Blocked(cfg, req.command)
    requires HasSuppliedId(req) && req.executionId.value != freshId
    ensures var s := ExecuteCommandAsync(cfg, reg, req, freshId, t0, t1);
            && s.id != req.executionId.value && !s.launched
            && GetOutput(s.registry, s.id).Some?
            && GetOutput(s.registry, s.id).value.status == Failed
            && GetOutput(s.registry, s.id).value.errorMessage == Some(BlockedMessage)
  {
  }

  /** An allowed request with a supplied id that the registry does not hold:
      the id is returned, but every background event is lost and the id never
      resolves. */
  lemma AsyncUnknownSuppliedIdNeverResolves(cfg: Config, reg: Registry, req: Request, freshId: string,
                                            t0: int, t1: int, events: seq<Event>)
    requires !Blocked(cfg, req.command) && HasSuppliedId(req) && req.executionId.value !in reg
    ensures var s := ExecuteCommandAsync(cfg, reg, req, freshId, t0, t1);
            && s.id == req.executionId.value
            && ApplyAll(s.registry, s.id, events) == reg
            && GetOutput(ApplyAll(s.registry, s.id, events), s.id).None?
  {
    ApplyAllUnknown(reg, req.executionId.value, events);
  }

  /** An allowed request without an id, followed by any history of its run:
      the returned id resolves to a finished record carrying the command and
      everything the run produced, and no other entry is touched. */
  lemma AsyncRunFromRequest(cfg: Config, reg: Registry, req: Request, freshId: string,
                            t0: int, t1: int, p: Process, events: seq<Event>)
    requires !Blocked(cfg, req.command) && !HasSuppliedId(req)
    requires IsRunOf(p, events)
    ensures var s := ExecuteCommandAsync(cfg, reg, req, freshId, t0, t1);
            var r := ApplyAll(s.registry, s.id, events);
            && s.id == freshId
            && GetOutput(r, s.id).Some? && r[s.id].finished
            && r[s.id].command == req.command
            && (p.Spawned? ==>
                  r[s.id].outputLines == Delivered(p.stdout) && r[s.id].errorLines == Delivered(p.stderr))
            && forall k | k in reg && k != freshId :: k in r && r[k] == reg[k]
  {
    var s := ExecuteCommandAsync(cfg, reg, req, freshId, t0, t1);
    AsyncRunOutcome(s.registry, s.id, p, events);
  }

  /** Both paths see the same stdout: on a clean exit the synchronous output is
      the asynchronous record's output lines, joined. */
  lemma SyncAndAsyncAgreeOnOutput(cfg: Config, command: Option<string>, p: Process, sep: string,
                                  reg: Registry, id: string, events: seq<Event>)
    requires !Blocked(cfg, command)
    requires p.Spawned? && p.wait.Exited?
    requires p.stdout.Stream? && p.stdout.ending.Eof? && p.stderr.Stream? && p.stderr.ending.Eof?
    requires id in reg && reg[id].outputLines == [] && reg[id].errorLines == [] && reg[id].errorMessage.None?
    requires IsRunOf(p, events)
    ensures id in ApplyAll(reg, id, events)
    ensures ExecuteCommand(cfg, command, p, sep).output
            == Some(Join(ApplyAll(reg, id, events)[id].outputLines, sep))
    ensures ExecuteCommand(cfg, command, p, sep).error
            == Some(Join(ApplyAll(reg, id, events)[id].errorLines, sep))
  {
    AsyncRunOutcome(reg, id, p, events);
  }

  /** The asynchronous call keeps the registry valid on every path. */
  lemma AsyncStartPreservesValid(cfg: Config, reg: Registry, req: Request, freshId: string, t0: int, t1: int)
    requires Valid(reg)
    ensures Valid(ExecuteCommandAsync(cfg, reg, req, freshId, t0, t1).registry)
  {
    CreatePreservesValid(reg, freshId, req.command, t0);
    ApplyPreservesValid(Create(reg, freshId, req.command, t0), freshId, Fail(Some(BlockedMessage), t1));
  }

  // ---------------------------------------------------------------------------
  // Scenarios

  /** `echo hello` on a POSIX host: exit code 0, the line on stdout, nothing on
      stderr. */
  lemma EchoHelloScenario()
    ensures var r := ExecuteCommand(DefaultConfig, Some("echo hello"),
                                    Spawned(Stream(["hello"], Eof), Stream([], Eof), Exited(0)), "\n");
            && r.exitCode == 0 && r.success
            && r.output == Some("hello\n") && r.error == Some("")
  {
    EchoCommandsAllowed();
    assert ["hello"][1..] == [];
    assert Join(["hello"], "\n") == "hello\n";
    assert ReadInputStream(Stream(["hello"], Eof), "\n") == Success("hello\n");
    assert ReadInputStream(Stream([], Eof), "\n") == Success("");
  }

  /** Two echoed lines, with the waiter finishing before the stdout reader
      delivers the second line: the record still ends with both lines in order
      and status COMPLETED. */
  lemma EchoTwoLinesScenario(reg: Registry, freshId: string, t0: int, t1: int, t2: int)
    ensures var s := ExecuteCommandAsync(DefaultConfig, reg, Request(Some("echo a; echo b"), None), freshId, t0, t1);
            var r := ApplyAll(s.registry, s.id, [OutLine("a"), Finish(0, t2), OutLine("b")]);
            && s.id in r
            && r[s.id].outputLines == ["a", "b"] && r[s.id].errorLines == []
            && r[s.id].status.Name() == "COMPLETED" && r[s.id].exitCode == Some(0)
  {
    EchoCommandsAllowed();
    var req := Request(Some("echo a; echo b"), None);
    var s := ExecuteCommandAsync(DefaultConfig, reg, req, freshId, t0, t1);
    var events := [OutLine("a"), Finish(0, t2), OutLine("b")];
    var p := Spawned(Stream(["a", "b"], Eof), Stream([], Eof), Exited(0));
    var tail1 := [Finish(0, t2), OutLine("b")];
    var tail2 := [OutLine("b")];
    assert events[1..] == tail1 && tail1[1..] == tail2 && tail2[1..] == [];
    assert OutLines(tail2) == ["b"] && ErrLines(tail2) == [] && Terminals(tail2) == [];
    assert OutLines(tail1) == ["b"] && ErrLines(tail1) == [] && Terminals(tail1) == [Finish(0, t2)];
    assert OutLines(events) == ["a", "b"] && ErrLines(events) == [] && Terminals(events) == [Finish(0, t2)];
    AsyncRunOutcome(s.registry, s.id, p, events);
  }
}

=== FILE: text.dfy ===
/** The string operations of the Java standard library that the guard and the
    stream reader depend on: `String.trim`, ASCII case mapping,
    `String.contains`, and the line splitting of `BufferedReader.readLine`. */
module Text {

  /** The characters `String.trim` removes from the two ends of a string: those
      whose code point is at most U+0020. */
  predicate IsTrimmable(c: char) {
    c <= ' '
  }

  predicate AllTrimmable(s: string) {
    forall i :: 0 <= i < |s| ==> IsTrimmable(s[i])
  }

  function TrimStart(s: string): string
    decreases |s|
  {
    if |s| > 0 && IsTrimmable(s[0]) then TrimStart(s[1..]) else s
  }

  function TrimEnd(s: string): string
    decreases |s|
  {
    if |s| > 0 && IsTrimmable(s[|s| - 1]) then TrimEnd(s[..|s| - 1]) else s
  }

  /** `String.trim`. */
  function Trim(s: string): string {
    TrimEnd(TrimStart(s))
  }

  /** Java's `isEmpty` applied after `trim`: the string holds only trimmable characters. */
  predicate IsBlank(s: string) {
    Trim(s) == []
  }

  // ---------------------------------------------------------------------------
  // Trimming: characterisation and algebra

  /** `i` is the number of leading characters `TrimStart` removes. */
  lemma {:induction false} TrimStartShape(s: string) returns (i: nat)
    ensures i <= |s| && TrimStart(s) == s[i..] && AllTrimmable(s[..i])
    ensures i < |s| ==> !IsTrimmable(s[i])
    decreases |s|
  {
    if |s| > 0 && IsTrimmable(s[0]) {
      var k := TrimStartShape(s[1..]);
      i := k + 1;
      assert s[1..][k..] == s[i..];
      forall m | 0 <= m < i ensures IsTrimmable(s[m]) {
        if m > 0 {
          assert s[m] == s[1..][..k][m - 1];
        }
      }
    } else {
      i := 0;
    }
  }

  /** `j` is where the characters `TrimEnd` removes begin. */
  lemma {:induction false} TrimEndShape(s: string) returns (j: nat)
    ensures j <= |s| && TrimEnd(s) == s[..j] && AllTrimmable(s[j..])
    ensures j > 0 ==> !IsTrimmable(s[j - 1])
    decreases |s|
  {
    if |s| > 0 && IsTrimmable(s[|s| - 1]) {
      var s' := s[..|s| - 1];
      j := TrimEndShape(s');
      assert s'[..j] == s[..j];
      forall m | j <= m < |s| ensures IsTrimmable(s[m]) {
        if m < |s'| {
          assert s[m] == s'[j..][m - j];
        }
      }
    } else {
      j := |s|;
    }
  }

  /** The trimmed string is the slice `s[i..j]` left after removing a
      trimmable prefix and a trimmable suffix, and neither of its ends is
      trimmable. */
  lemma TrimShape(s: string) returns (i: nat, j: nat)
    ensures i <= j <= |s| && Trim(s) == s[i..j]
    ensures AllTrimmable(s[..i]) && AllTrimmable(s[j..])
    ensures Trim(s) != [] ==> !IsTrimmable(Trim(s)[0]) && !IsTrimmable(Trim(s)[|Trim(s)| - 1])
  {
    i := TrimStartShape(s);
    var t := s[i..];
    var k := TrimEndShape(t);
    j := i + k;
    assert t[..k] == s[i..j];
    assert s[j..] == t[k..];
  }

  /** A string is blank exactly when all its characters are trimmable. */
  lemma BlankIffAllTrimmable(s: string)
    ensures IsBlank(s) <==> AllTrimmable(s)
  {
    var i, j := TrimShape(s);
    if AllTrimmable(s) {
      TrimStartOfAllTrimmable(s);
    }
    if IsBlank(s) {
      forall m | 0 <= m < |s| ensures IsTrimmable(s[m]) {
        if m < i {
          assert s[m] == s[..i][m];
        } else {
          assert s[m] == s[j..][m - j];
        }
      }
    }
  }

  lemma {:induction false} TrimStartOfPadded(p: string, s: string)
    requires AllTrimmable(p)
    ensures TrimStart(p + s) == TrimStart(s)
    decreases |p|
  {
    if |p| > 0 {
      assert (p + s)[1..] == p[1..] + s;
      TrimStartOfPadded(p[1..], s);
    } else {
      assert p + s == s;
    }
  }

  lemma {:induction false} TrimEndOfPadded(s: string, q: string)
    requires AllTrimmable(q)
    ensures TrimEnd(s + q) == TrimEnd(s)
    decreases |q|
  {
    if |q| > 0 {
      assert (s + q)[..|s + q| - 1] == s + q[..|q| - 1];
      TrimEndOfPadded(s, q[..|q| - 1]);
    } else {
      assert s + q == s;
    }
  }

  lemma {:induction false} TrimStartOfAllTrimmable(s: string)
    requires AllTrimmable(s)
    ensures TrimStart(s) == []
    decreases |s|
  {
    if |s| > 0 {
      TrimStartOfAllTrimmable(s[1..]);
    }
  }

  /** When `s` starts with a character that is kept, trimming the start of
      `s + q` leaves `s + q` untouched. */
  lemma {:induction false} TrimStartAppend(s: string, q: string)
    ensures AllTrimmable(s) ==> TrimStart(s + q) == TrimStart(q)
    ensures !AllTrimmable(s) ==> TrimStart(s + q) == TrimStart(s) + q
    decreases |s|
  {
    if |s| == 0 {
      assert s + q == q;
    } else if IsTrimmable(s[0]) {
      assert (s + q)[1..] == s[1..] + q;
      TrimStartAppend(s[1..], q);
      if !AllTrimmable(s) {
        var k :| 0 <= k < |s| && !IsTrimmable(s[k]);
        assert s[1..][k - 1] == s[k];
      }
    } else {
      assert (s + q)[0] == s[0];
    }
  }

  /** Padding a string with trimmable characters on either side does not
      change its trimmed form. */
  lemma TrimPadded(p: string, s: string, q: string)
    requires AllTrimmable(p) && AllTrimmable(q)
    ensures Trim(p + s + q) == Trim(s)
  {
    assert p + s + q == p + (s + q);
    TrimStartOfPadded(p, s + q);
    TrimStartAppend(s, q);
    if AllTrimmable(s) {
      TrimStartOfAllTrimmable(s);
      TrimStartOfAllTrimmable(q);
    } else {
      TrimEndOfPadded(TrimStart(s), q);
    }
  }

  /** Trimming is idempotent. */
  lemma TrimIdempotent(s: string)
    ensures Trim(Trim(s)) == Trim(s)
  {
    var i, j := TrimShape(s);
    var t := Trim(s);
    if t != [] {
      assert TrimStart(t) == t;
      assert TrimEnd(t) == t;
    }
  }

  // ---------------------------------------------------------------------------
  // ASCII case mapping

  function LowerChar(c: char): (d: char)
  {
    if 'A' <= c <= 'Z' then (c as int + 32) as char else c
  }

  function UpperChar(c: char): (d: char)
  {
    if 'a' <= c <= 'z' then (c as int - 32) as char else c
  }

  /** `String.toLowerCase`, restricted to the ASCII letters. */
  function Lower(s: string): (r: string)
    ensures |r| == |s|
    ensures forall i :: 0 <= i < |s| ==> r[i] == LowerChar(s[i])
  {
    seq(|s|, i requires 0 <= i < |s| => LowerChar(s[i]))
  }

  /** `String.toUpperCase`, restricted to the ASCII letters. */
  function Upper(s: string): (r: string)
    ensures |r| == |s|
    ensures forall i :: 0 <= i < |s| ==> r[i] == UpperChar(s[i])
  {
    seq(|s|, i requires 0 <= i < |s| => UpperChar(s[i]))
  }

  /** Lower-casing forgets any earlier upper-casing. */
  lemma LowerOfUpper(s: string)
    ensures Lower(Upper(s)) == Lower(s)
  {
  }

  lemma {:induction false} TrimStartLower(s: string)
    ensures TrimStart(Lower(s)) == Lower(TrimStart(s))
    decreases |s|
  {
    if |s| > 0 {
      assert Lower(s)[1..] == Lower(s[1..]);
      TrimStartLower(s[1..]);
    }
  }

  lemma {:induction false} TrimEndLower(s: string)
    ensures TrimEnd(Lower(s)) == Lower(TrimEnd(s))
    decreases |s|
  {
    if |s| > 0 {
      assert Lower(s)[..|s| - 1] == Lower(s[..|s| - 1]);
      TrimEndLower(s[..|s| - 1]);
    }
  }

  /** Case mapping never turns a kept character into a trimmable one or back,
      so lower-casing and trimming commute. */
  lemma TrimLower(s: string)
    ensures Trim(Lower(s)) == Lower(Trim(s))
  {
    TrimStartLower(s);
    TrimEndLower(TrimStart(s));
  }

  /** Upper-casing keeps a blank string blank and a non-blank one non-blank. */
  lemma BlankUpper(s: string)
    ensures IsBlank(Upper(s)) <==> IsBlank(s)
  {
    BlankIffAllTrimmable(s);
    BlankIffAllTrimmable(Upper(s));
    if !AllTrimmable(s) {
      var m :| 0 <= m < |s| && !IsTrimmable(s[m]);
      assert !IsTrimmable(Upper(s)[m]);
    }
  }

  // ---------------------------------------------------------------------------
  // Substrings

  predicate OccursAt(s: string, sub: string, i: int) {
    0 <= i && i + |sub| <= |s| && s[i..i + |sub|] == sub
  }

  /** `String.contains`: the empty string occurs in every string. */
  predicate Contains(s: string, sub: string) {
    exists i | 0 <= i <= |s| - |sub| :: OccursAt(s, sub, i)
  }

  /** A string cannot contain a pattern one of whose characters it lacks. */
  lemma AbsentCharRulesOut(s: string, sub: string, j: int)
    requires 0 <= j < |sub| && sub[j] !in s
    ensures !Contains(s, sub)
  {
    forall i | 0 <= i <= |s| - |sub| ensures !OccursAt(s, sub, i) {
      assert s[i..i + |sub|][j] == s[i + j];
    }
  }

  /** A substring of a slice is a substring of the whole. */
  lemma ContainsInSlice(s: string, a: int, b: int, sub: string)
    requires 0 <= a <= b <= |s|
    requires Contains(s[a..b], sub)
    ensures Contains(s, sub)
  {
    var i :| 0 <= i <= (b - a) - |sub| && OccursAt(s[a..b], sub, i);
    forall k | 0 <= k < |sub| ensures s[a + i..a + i + |sub|][k] == sub[k] {
      assert s[a..b][i..i + |sub|][k] == sub[k];
    }
    assert s[a + i..a + i + |sub|] == sub;
    assert OccursAt(s, sub, a + i);
  }

  // ---------------------------------------------------------------------------
  // Lines

  /** The line terminators recognised by `BufferedReader.readLine`. */
  predicate IsLineBreak(c: char) {
    c == '\n' || c == '\r'
  }

  predicate NoLineBreak(s: string) {
    forall i :: 0 <= i < |s| ==> !IsLineBreak(s[i])
  }

  /** Each line followed by the separator, in order: what `readInputStream`
      accumulates in its `StringBuilder`. */
  function Join(lines: seq<string>, sep: string): string
  {
    if lines == [] then [] else lines[0] + sep + Join(lines[1..], sep)
  }

  /** Index of the first line terminator of `s`, or `|s|` when it has none. */
  function LineEnd(s: string): (k: nat)
    ensures k <= |s|
    ensures NoLineBreak(s[..k])
    ensures k < |s| ==> IsLineBreak(s[k])
    decreases |s|
  {
    if |s| == 0 || IsLineBreak(s[0]) then 0
    else
      var k := 1 + LineEnd(s[1..]);
      assert s[..k] == [s[0]] + s[1..][..k - 1];
      k
  }

  /** The lines `BufferedReader.readLine` returns one by one on `s`: a line ends
      at `\n`, at `\r`, or at `\r\n`, and a final unterminated line is kept. */
  function ReadLines(s: string): seq<string>
    decreases |s|
  {
    if s == [] then []
    else
      var k := LineEnd(s);
      var rest :=
        if k == |s| then []
        else if s[k] == '\r' && k + 1 < |s| && s[k + 1] == '\n' then s[k + 2..]
        else s[k + 1..];
      [s[..k]] + ReadLines(rest)
  }

  lemma {:induction false} LineEndOfBrokenLine(line: string, t: string)
    requires NoLineBreak(line)
    requires |t| > 0 && IsLineBreak(t[0])
    ensures LineEnd(line + t) == |line|
    decreases |line|
  {
    if |line| > 0 {
      assert (line + t)[1..] == line[1..] + t;
      LineEndOfBrokenLine(line[1..], t);
    } else {
      assert line + t == t;
    }
  }

  /** Reading back the joined text with `readLine` yields the original lines,
      for both platform separators, provided no line holds a terminator
      (which `readLine` never returns). */
  lemma {:induction false} ReadLinesJoin(lines: seq<string>, sep: string)
    requires sep == "\n" || sep == "\r\n"
    requires forall i :: 0 <= i < |lines| ==> NoLineBreak(lines[i])
    ensures ReadLines(Join(lines, sep)) == lines
    decreases |lines|
  {
    if lines != [] {
      var l := lines[0];
      var rest := Join(lines[1..], sep);
      var s := l + sep + rest;
      assert s == l + (sep + rest);
      LineEndOfBrokenLine(l, sep + rest);
      assert s[..|l|] == l;
      if sep == "\n" {
        assert s[|l| + 1..] == rest;
      } else {
        assert s[|l| + 2..] == rest;
      }
      ReadLinesJoin(lines[1..], sep);
      assert lines == [l] + lines[1..];
    }
  }

  /** Every line, and its separator after it, appears in the joined text. */
  lemma {:induction false} JoinContainsLine(lines: seq<string>, sep: string, k: int)
    requires 0 <= k < |lines|
    ensures Contains(Join(lines, sep), lines[k] + sep)
    decreases |lines|
  {
    var j := Join(lines, sep);
    if k == 0 {
      assert j[0..|lines[0] + sep|] == lines[0] + sep;
      assert OccursAt(j, lines[0] + sep, 0);
    } else {
      JoinContainsLine(lines[1..], sep, k - 1);
      var pre := lines[0] + sep;
      var rest := Join(lines[1..], sep);
      assert j == pre + rest;
      assert j[|pre|..|j|] == rest;
      ContainsInSlice(j, |pre|, |j|, lines[k] + sep);
    }
  }
}

=== FILE: wrappers.dfy ===
/** Wrappers used across the model. `Option` stands for a
    Java reference that may be null; `Result` for a value or a thrown
    exception. */
module Wrappers {

  datatype Option<+T> = None | Some(value: T)

  datatype Result<+R, +E> = Success(value: R) | Failure(error: E)
}
